=== FILE: README.md ===
# BinHub processor, modelled in Dafny

BinHub publishes pre-built command-line binaries. Each release is described by
a descriptor: a name, a version, some metadata, and one download spec per
architecture. The processor fetches every variant, checks its SHA-256, and
copies it (or extracts it from an archive) to
`<letter>/<name>/<version>/<arch>/<name>[.exe]` under the output root. It then
writes a four-level JSON index over all releases: root, letter, binary and
version.

This project models that core as pure Dafny functions and proves what it
promises:

- `base.dfy`, module `Base`: `Option`, `Result`, bytes, and non-empty names.
- `ordering.dfy`, module `Ordering`: Python's string order, `sorted(set(...))`,
  and the key order of a `dict` filled by appending.
- `paths.dfy`, module `Paths`: the nested directory, the file name and the
  public url, with splitting and joining on `/`.
- `fetch.dfy`, module `Fetch`: one variant fetch. Its effects on the output
  tree form an ordered log of `MakeDir`, `WriteFile` and `MakeExecutable`.
- `processor.dfy`, module `Processor`: the per-descriptor architecture loop
  and the run over all descriptor files.
- `catalog.dfy`, module `Catalog`: the index writes in the order the source
  makes them. Reading a path back gives the record of the last write to it.
- `pipeline.dfy`, module `Pipeline`: a whole run, from loaded descriptors to
  the index writes.

The network, the SHA-256 digest and the zip/tar decoders are inputs. A
download is a `Response`: `Refused` when the request or its status check
raised, `Interrupted` when reading the streamed body raised, and `Body(data)`
otherwise. `Tools.digest` and `Tools.unpack` are arbitrary functions, so
every property holds whatever those functions return.

Some behaviour of the code that the model keeps as written:

- The nested output directory is created before the body is read and before
  the checksum is checked (processor.py:108-109 come before 117-119 and 124).
  A body that breaks off or a failed checksum therefore leaves that directory
  behind, but never a file.
- The checksum comparison is exact and case-sensitive.
- `tgz` is accepted as another name for `tar.gz`.
- A descriptor whose every variant failed is still processed, with an empty
  architectures map. It still appears in the root, letter and binary indexes,
  and gets a version index whose architectures map is empty.

## Model

| member | source | states |
|---|---|---|
| Paths.FileName | processor.py:45-49 | the file name is `name + ".exe"` when the architecture starts with `windows`, and exactly `name` otherwise |
| Paths.NestedDir | processor.py:89-93 | the variant directory has four levels: the lower-cased first letter of the name, the name, the version, and the architecture unchanged (`normalize_arch` is the identity) |
| Paths.PublicUrl | processor.py:144-147 | the recorded url is absolute and ends in `/` and the published file's name; `UrlNamesOutputFile`, `UrlSegments` and `UrlInjective` give its full meaning |
| Paths.UrlNamesOutputFile | processor.py:144-147 | the recorded url is `/` followed by the output file's path segments joined with `/`, so it names the file that was written |
| Paths.UrlSegments | processor.py:144-147 | when no segment contains `/`, splitting the url on `/` gives back the empty root segment, letter, name, version, architecture and file name |
| Paths.UrlInjective | processor.py:144-147 | two variants with different name, version or architecture never get the same url |
| Fetch.ParseFormat | processor.py:64-77 | exactly `zip`, `tar.gz`, `tgz`, `tar.xz` and `tar` select a decoder: `zip` and only `zip` selects the zip reader, `tar.gz` and `tgz` the gzip tar reader, `tar.xz` the xz tar reader, and `tar` the plain tar reader |
| Fetch.Extract | processor.py:59-82 | an unknown type fails as unsupported before any decoding; a missing entry fails as not found; on success the result is the entry's bytes |
| Fetch.FetchVariant | processor.py:95-153 | a failed fetch writes no file; no effect reaches outside the variant's own directory; a success has passed the checksum gate, wrote the output file and then made it executable, and returns the url, the size of the written bytes, and the declared sha256 unchanged |
| Fetch.FetchSucceedsIff | processor.py:104-141 | a fetch succeeds exactly when the download arrived, passed the checksum gate, and is either `raw` or an accepted archive that contains the entry |
| Fetch.PublishedContents | processor.py:133-141 | the published file holds the downloaded bytes for `raw`, and otherwise the requested archive entry |
| Fetch.DownloadFailureEffects | processor.py:104-119 | a refused request fails with nothing created; a body that breaks off while streaming fails after the nested directory was created, and writes no file |
| Fetch.ChecksumGate | processor.py:122-131 | a declared, non-empty checksum that differs from the digest fails with both values; only the directory was created, and no file was written |
| Fetch.ChecksumSkipped | processor.py:124 | a checksum that is absent or empty is never checked: the fetch is the same whatever the digest function returns |
| Fetch.MissingPathFailsEarly | processor.py:137-140 | an archive type with an absent or empty entry path fails before any decoder runs |
| Fetch.FetchErrorCause | processor.py:104-141 | each error kind is reported exactly when its check is the first to fail, in the order download, checksum, entry path, type, entry lookup |
| Processor.ProcessDescriptor | processor.py:173-185 | the architectures kept are exactly those whose fetch succeeded, each with its fetch's record; every other field is unchanged; the result equals the map-based definition `Processed` |
| Processor.SurvivorCount | processor.py:175-182 | of N declared variants with K failures, exactly N - K are kept |
| Processor.SiblingIndependence | processor.py:175-182 | a variant's entry depends only on its own spec and its own download; changing or breaking a sibling never removes or changes it |
| Processor.LoadedConcat | processor.py:468-475 | dropping the files that failed to load keeps the rest in file order: loading a concatenation gives the concatenation of the loaded parts |
| Processor.ProcessAll | processor.py:463-477 | the run returns one processed descriptor for each file that loaded, in file order, and none for the others |
| Pipeline.Run | processor.py:463-480 | a run processes the loaded descriptors in file order and writes the catalog over them: the root lists the letter of every loaded descriptor, and each release's version index holds the variants that survived fetching for its last loaded descriptor |
| Ordering.SortedSet | processor.py:223 | `sorted(list(set(xs)))` is strictly increasing in Python's string order and holds exactly the elements of `xs` |
| Ordering.SortedUnique | processor.py:248 | a strictly sorted listing is determined by its set of elements, so the same set always gives the same listing |
| Ordering.FirstOccurrences | processor.py:200-203 | the keys of a dict grouped by appending are each element once, in first-occurrence order |
| Catalog.CatalogWrites | processor.py:197-270 | `generate_hierarchical_apis` writes the root index first, and no later write goes to the root; what each index holds is stated by `RootIndexListsLetters`, `LetterIndexListsNames`, `BinaryIndexFromFirst`, `VersionIndexFromLast` and `OnlyCataloguedPaths` |
| Catalog.RootIndexListsLetters | processor.py:199-213 | the root index lists, strictly sorted and once each, the lower-cased first letter of every processed descriptor, including descriptors with no published variant |
| Catalog.LetterIndexListsNames | processor.py:216-229 | a letter index exists exactly for the letters of some descriptor, and lists the distinct names filed under that letter in strictly sorted order |
| Catalog.BinaryIndexFromFirst | processor.py:231-254 | a binary index carries the description, homepage, repository, license and tags of the first descriptor with that name, and lists all of that name's distinct versions in strictly sorted order |
| Catalog.VersionIndexFromLast | processor.py:256-270 | a version index holds the architectures map of the last descriptor with that name and version, unchanged; a later duplicate overwrites an earlier one |
| Catalog.OnlyCataloguedPaths | processor.py:197-270 | no index is written outside the root and the letters, names and (name, version) pairs of the processed descriptors |

## Left out

- HTTP download, `raise_for_status` and streaming (processor.py:104-105, 117-119): the outcome is an input `Response`. Timeouts, retries and partly received bodies are not modelled; any exception while streaming is `Interrupted`.
- Processor.Env: a url serves one `Response` for the whole run. In the source every variant makes its own request, so two architectures that share a url (a universal build, say) can get different outcomes; the model makes them succeed or fail together, and `SiblingIndependence` is stated for that setting.
- SHA-256 hashing and its chunked reading (processor.py:51-57, 126-130): modelled by the arbitrary function `Tools.digest`.
- zip/tar/gzip/xz decoding and the temporary extraction directory (processor.py:61-75): modelled by the arbitrary function `Tools.unpack`. A decoder that raises is the `Unreadable` outcome.
- The temporary download file and its removal, the numeric mode `0o755`, and file-system errors such as a failed write or `mkdir`: the model records only the directory, write and chmod effects on the output tree.
- A missing `url` or `type` key in an architecture entry (a `KeyError` in processor.py:99-100): the model's `VariantSpec` always has both fields.
- YAML reading and parsing (processor.py:159-171), and file discovery in `find_yaml_files` (processor.py:187-195): `ProcessAll` takes the files' load results in their sorted order.
- The order in which a descriptor's architectures are visited: the loop takes them in any order. The resulting map does not depend on that order.
- JSON serialisation: key order, indentation and the JSON file names.
- HTML rendering (processor.py:272-461), `print` logging and `__main__`.
- Path traversal in archive entry paths: the source has no check, and none is added.
- Fetch.FetchVariant: `tarfile`'s `extractall` is called without a `filter` (processor.py:68-69, 71-72, 74-75). On Python before 3.14, tar members with absolute names, with `..` components, or written through symlink members land outside the temporary extraction directory, and possibly inside the output tree, for example over another variant's binary. The effect log does not record those writes. So the ensures that every effect stays inside the variant's nested directory holds only for archives whose members stay inside the extraction directory. `zipfile` sanitises member names, so `zip` archives are not affected.
- Paths.Lower: maps only ASCII `A`-`Z`. Python's `str.lower` also folds non-ASCII letters, and can return two characters.
- Empty names: `name[0]` raises in the source. Descriptor names have the non-empty type `Name`.
- Path segments containing `/`, or absolute segments, which `pathlib` would nest or re-root: paths are sequences of opaque segments. The url lemmas require segments without `/`.
- Empty and `.` segments, which `pathlib` drops, and `..` segments, which the operating system resolves to the parent: the model keeps every segment as given. So it does not promise what the source does for them. A name starting with `.` has the letter `.`, and the source writes its letter index over the root index. An empty version makes the version index overwrite the binary index, and the recorded url (`/j/jq//linux-amd64/jq`) no longer names the written file. `Paths.UrlNamesOutputFile`, `Paths.UrlInjective` and the catalog read-back lemmas hold only for paths made of ordinary segments.
- A name, version or architecture spelled `api.json`, which collides with an index file and makes the source raise: not modelled.

=== FILE: base.dfy ===
/** Small failure-carrying wrappers and the byte type shared by the model. */
module Base {

  /** A value that may be absent: Python's `None` versus a present value. */
  datatype Option<+T> = None | Some(value: T)

  /** The outcome of an operation that the source expresses by raising. */
  datatype Result<+T, +E> = Ok(value: T) | Err(error: E)

  /** `p` is an initial segment of `s`: `str.startswith`, or a path inside a directory. */
  predicate IsPrefix<T(==)>(p: seq<T>, s: seq<T>)
  {
    |p| <= |s| && s[..|p|] == p
  }

  newtype byte = x: int | 0 <= x < 256

  type Bytes = seq<byte>

  /** A non-empty string; the processor indexes `name[0]` on every path it builds. */
  type Name = s: string | |s| > 0 witness "a"
}

=== FILE: catalog.dfy ===
/**
 * The hierarchical API (`generate_hierarchical_apis`): a root index of
 * first letters, a per-letter index of binary names, a per-binary index of
 * metadata and versions, and a per-release index of published variants.
 *
 * The index files are modelled as the sequence of writes the source makes,
 * in its order; the tree that results keeps, for every directory, the record
 * of the last write to it.
 */
module Catalog {
  import opened Base
  import opened Ordering
  import opened Paths
  import opened Fetch
  import opened Processor

  type Release = Descriptor<Published>

  const ApiVersion := "1.0"

  /** The contents of one `api.json`. */
  datatype Record =
    | RootIndex(schema: string, directories: seq<string>)
    | LetterIndex(schema: string, binaries: seq<string>)
    | BinaryIndex(name: string, description: string, homepage: string, repository: string,
                  license: string, tags: seq<string>, versions: seq<string>)
    | VersionIndex(name: string, version: string, architectures: map<string, Published>)

  /** Writing `record` to `<path>/api.json` under the output root. */
  datatype Write = Write(path: Path, record: Record)

  /** The index files after the writes: later writes replace earlier ones. */
  function Store(ws: seq<Write>): map<Path, Record>
  {
    if |ws| == 0 then map[]
    else Store(ws[..|ws| - 1])[ws[|ws| - 1].path := ws[|ws| - 1].record]
  }

  /** The record found at `<p>/api.json` after the writes, if any. */
  function Read(ws: seq<Write>, p: Path): Option<Record>
  {
    if p in Store(ws) then Some(Store(ws)[p]) else None
  }

  lemma {:induction false} ReadConcat(a: seq<Write>, b: seq<Write>, p: Path)
    ensures Read(a + b, p) == if Read(b, p).Some? then Read(b, p) else Read(a, p)
    decreases |b|
  {
    if |b| == 0 {
      assert a + b == a;
    } else {
      var b' := b[..|b| - 1];
      assert (a + b)[..|a + b| - 1] == a + b';
      assert (a + b)[|a + b| - 1] == b[|b| - 1];
      ReadConcat(a, b', p);
    }
  }

  lemma {:induction false} ReadUnwritten(ws: seq<Write>, p: Path)
    requires forall w :: w in ws ==> w.path != p
    ensures Read(ws, p) == None
    decreases |ws|
  {
    if |ws| > 0 {
      assert ws[|ws| - 1] in ws;
      ReadUnwritten(ws[..|ws| - 1], p);
    }
  }

  lemma ReadSingle(w: Write, p: Path)
    ensures Read([w], p) == if w.path == p then Some(w.record) else None
  {
    assert [w][..0] == [];
    assert Store([w]) == map[w.path := w.record];
  }

  /** Every write goes to `q` or below it. */
  predicate Within(ws: seq<Write>, q: Path)
  {
    forall w :: w in ws ==> IsPrefix(q, w.path)
  }

  /** Every write goes deeper than `k` levels. */
  predicate Deeper(ws: seq<Write>, k: nat)
  {
    forall w :: w in ws ==> |w.path| > k
  }

  // ---- grouping helpers ----

  /** One field of every release, in input order: the list a comprehension
      such as `[d.name for d in ds]` builds. */
  function Column(ds: seq<Release>, f: Release -> string): (r: seq<string>)
    ensures |r| == |ds|
    ensures forall x :: x in r <==> exists d :: d in ds && f(d) == x
    decreases |ds|
  {
    if |ds| == 0 then []
    else
      assert forall d :: d in ds <==> d == ds[0] || d in ds[1..] by {
        assert ds == [ds[0]] + ds[1..];
      }
      [f(ds[0])] + Column(ds[1..], f)
  }

  function Letters(ds: seq<Release>): (ls: seq<string>)
    ensures forall l :: l in ls <==> exists d :: d in ds && Letter(d.name) == l
  {
    Column(ds, (d: Release) => Letter(d.name))
  }

  function Names(ds: seq<Release>): (ns: seq<string>)
    ensures forall n :: n in ns <==> exists d :: d in ds && d.name == n
  {
    Column(ds, (d: Release) => d.name)
  }

  function Versions(ds: seq<Release>): (vs: seq<string>)
    ensures forall v :: v in vs <==> exists d :: d in ds && d.version == v
  {
    Column(ds, (d: Release) => d.version)
  }

  /** `letter_groups[l]`: the descriptors filed under letter `l`, in input order. */
  function InGroup(ds: seq<Release>, l: string): (g: seq<Release>)
    ensures forall d :: d in g <==> d in ds && Letter(d.name) == l
    decreases |ds|
  {
    if |ds| == 0 then []
    else
      assert forall d :: d in ds <==> d == ds[0] || d in ds[1..] by {
        assert ds == [ds[0]] + ds[1..];
      }
      if Letter(ds[0].name) == l then [ds[0]] + InGroup(ds[1..], l) else InGroup(ds[1..], l)
  }

  /** `binary_groups[n]`: the descriptors named `n`, in input order. */
  function Named(ds: seq<Release>, n: string): (h: seq<Release>)
    ensures forall d :: d in h <==> d in ds && d.name == n
    decreases |ds|
  {
    if |ds| == 0 then []
    else
      assert forall d :: d in ds <==> d == ds[0] || d in ds[1..] by {
        assert ds == [ds[0]] + ds[1..];
      }
      if ds[0].name == n then [ds[0]] + Named(ds[1..], n) else Named(ds[1..], n)
  }

  /** The last of `h` with version `v`: the one whose index is written last. */
  function LastWithVersion(h: seq<Release>, v: string): Option<Release>
    decreases |h|
  {
    if |h| == 0 then None
    else
      var later := LastWithVersion(h[1..], v);
      if later.Some? then later
      else if h[0].version == v then Some(h[0])
      else None
  }

  // ---- the writes, in the order the source makes them ----

  function VersionRecord(d: Release): Record
  {
    VersionIndex(d.name, d.version, d.architectures)
  }

  /** One version index per descriptor of the name group. */
  function VersionWrites(l: string, n: string, h: seq<Release>): seq<Write>
    decreases |h|
  {
    if |h| == 0 then []
    else [Write([l, n, h[0].version], VersionRecord(h[0]))] + VersionWrites(l, n, h[1..])
  }

  /** The binary index of name `n` (metadata from the group's first
      descriptor), followed by its version indexes. */
  function NameBlock(l: string, n: string, h: seq<Release>): seq<Write>
    requires |h| > 0
  {
    var first := h[0];
    [Write([l, n], BinaryIndex(n, first.description, first.homepage, first.repository,
                               first.license, first.tags, SortedSet(Versions(h))))]
      + VersionWrites(l, n, h)
  }

  /** The block of name `n` within the letter group `g`. */
  function NameBlockOf(l: string, n: string, g: seq<Release>): seq<Write>
    requires n in Names(g)
  {
    assert |Named(g, n)| > 0 by {
      var d :| d in g && d.name == n;
      assert d in Named(g, n);
    }
    NameBlock(l, n, Named(g, n))
  }

  function NameBlocks(l: string, ns: seq<string>, g: seq<Release>): seq<Write>
    requires forall n :: n in ns ==> n in Names(g)
    decreases |ns|
  {
    if |ns| == 0 then []
    else
      assert ns[0] in ns;
      NameBlockOf(l, ns[0], g) + NameBlocks(l, ns[1..], g)
  }

  /** The letter index of `l`, followed by the blocks of its names in the
      order each name first occurs. */
  function LetterBlock(l: string, ds: seq<Release>): seq<Write>
  {
    var g := InGroup(ds, l);
    [Write([l], LetterIndex(ApiVersion, SortedSet(Names(g))))]
      + NameBlocks(l, FirstOccurrences(Names(g)), g)
  }

  function LetterBlocks(ls: seq<string>, ds: seq<Release>): seq<Write>
    decreases |ls|
  {
    if |ls| == 0 then [] else LetterBlock(ls[0], ds) + LetterBlocks(ls[1..], ds)
  }

  /** `generate_hierarchical_apis`: the root index, then each letter group in
      the order its letter first occurs. */
  function CatalogWrites(ds: seq<Release>): (ws: seq<Write>)
    // the root index is written first, and nothing written later goes to the root
    ensures |ws| > 0 && ws[0].path == [] && ws[0].record.RootIndex?
    ensures forall k :: 1 <= k < |ws| ==> |ws[k].path| > 0
  {
    var ls := FirstOccurrences(Letters(ds));
    LetterBlocksPlace(ls, ds);
    [Write([], RootIndex(ApiVersion, SortedSet(ls)))] + LetterBlocks(ls, ds)
  }

  // ---- where each block writes ----

  lemma {:induction false} VersionWritesPlace(l: string, n: string, h: seq<Release>)
    ensures Within(VersionWrites(l, n, h), [l, n]) && Deeper(VersionWrites(l, n, h), 2)
    decreases |h|
  {
    if |h| > 0 {
      VersionWritesPlace(l, n, h[1..]);
      assert [l, n, h[0].version][..2] == [l, n];
    }
  }

  lemma NameBlockPlace(l: string, n: string, h: seq<Release>)
    requires |h| > 0
    ensures Within(NameBlock(l, n, h), [l, n]) && Deeper(NameBlock(l, n, h), 1)
  {
    VersionWritesPlace(l, n, h);
    assert [l, n][..2] == [l, n];
  }

  lemma NameBlockOfPlace(l: string, n: string, g: seq<Release>)
    requires n in Names(g)
    ensures Within(NameBlockOf(l, n, g), [l]) && Deeper(NameBlockOf(l, n, g), 1)
  {
    var b := NameBlockOf(l, n, g);
    NameBlockPlace(l, n, Named(g, n));
    forall w | w in b
      ensures IsPrefix([l], w.path)
    {
      assert w.path[..1] == w.path[..2][..1];
    }
  }

  lemma PlaceConcat(a: seq<Write>, b: seq<Write>, q: Path, k: nat)
    requires Within(a, q) && Within(b, q) && Deeper(a, k) && Deeper(b, k)
    ensures Within(a + b, q) && Deeper(a + b, k)
  {
  }

  lemma {:induction false} NameBlocksPlace(l: string, ns: seq<string>, g: seq<Release>)
    requires forall n :: n in ns ==> n in Names(g)
    ensures Within(NameBlocks(l, ns, g), [l]) && Deeper(NameBlocks(l, ns, g), 1)
    decreases |ns|
  {
    if |ns| > 0 {
      assert ns[0] in ns;
      NameBlocksPlace(l, ns[1..], g);
      NameBlockOfPlace(l, ns[0], g);
      PlaceConcat(NameBlockOf(l, ns[0], g), NameBlocks(l, ns[1..], g), [l], 1);
    }
  }

  lemma LetterBlockPlace(l: string, ds: seq<Release>)
    ensures Within(LetterBlock(l, ds), [l]) && Deeper(LetterBlock(l, ds), 0)
  {
    var g := InGroup(ds, l);
    NameBlocksPlace(l, FirstOccurrences(Names(g)), g);
    assert [l][..1] == [l];
  }

  lemma {:induction false} LetterBlocksPlace(ls: seq<string>, ds: seq<Release>)
    ensures Deeper(LetterBlocks(ls, ds), 0)
    decreases |ls|
  {
    if |ls| > 0 {
      LetterBlockPlace(ls[0], ds);
      LetterBlocksPlace(ls[1..], ds);
    }
  }

  // ---- reading a block back ----

  /** The version index of `v` holds the last descriptor of the group with
      that version. */
  lemma {:induction false} VersionWritesRead(l: string, n: string, h: seq<Release>, v: string)
    ensures LastWithVersion(h, v).None? ==> Read(VersionWrites(l, n, h), [l, n, v]) == None
    ensures LastWithVersion(h, v).Some? ==>
      Read(VersionWrites(l, n, h), [l, n, v]) == Some(VersionRecord(LastWithVersion(h, v).value))
    decreases |h|
  {
    if |h| > 0 {
      var w := Write([l, n, h[0].version], VersionRecord(h[0]));
      VersionWritesRead(l, n, h[1..], v);
      ReadConcat([w], VersionWrites(l, n, h[1..]), [l, n, v]);
      ReadSingle(w, [l, n, v]);
    } else {
      ReadUnwritten([], [l, n, v]);
    }
  }

  lemma NameBlockMiss(l: string, n: string, g: seq<Release>, p: Path)
    requires n in Names(g)
    requires |p| >= 2 && p[1] != n
    ensures Read(NameBlockOf(l, n, g), p) == None
  {
    var b := NameBlockOf(l, n, g);
    NameBlockPlace(l, n, Named(g, n));
    forall w | w in b
      ensures w.path != p
    {
      assert w.path[..2][1] == n;
    }
    ReadUnwritten(b, p);
  }

  lemma DistinctTail(s: seq<string>)
    requires Distinct(s) && |s| > 0
    ensures Distinct(s[1..]) && s[0] !in s[1..]
    ensures forall x :: x in s <==> x == s[0] || x in s[1..]
  {
    assert s == [s[0]] + s[1..];
    forall k | 0 <= k < |s[1..]|
      ensures s[1..][k] != s[0]
    {
      assert s[1..][k] == s[k + 1];
    }
  }

  lemma {:induction false} NameBlocksRead(l: string, ns: seq<string>, g: seq<Release>, p: Path)
    requires forall n :: n in ns ==> n in Names(g)
    requires Distinct(ns)
    requires |p| >= 2 && p[0] == l
    ensures p[1] !in ns ==> Read(NameBlocks(l, ns, g), p) == None
    ensures p[1] in ns ==> Read(NameBlocks(l, ns, g), p) == Read(NameBlockOf(l, p[1], g), p)
    decreases |ns|
  {
    if |ns| == 0 {
      ReadUnwritten([], p);
    } else {
      assert ns[0] in ns;
      DistinctTail(ns);
      NameBlocksRead(l, ns[1..], g, p);
      ReadConcat(NameBlockOf(l, ns[0], g), NameBlocks(l, ns[1..], g), p);
      if p[1] != ns[0] {
        NameBlockMiss(l, ns[0], g, p);
      }
    }
  }

  lemma LetterBlockMiss(l: string, ds: seq<Release>, p: Path)
    requires |p| >= 1 && p[0] != l
    ensures Read(LetterBlock(l, ds), p) == None
  {
    var b := LetterBlock(l, ds);
    LetterBlockPlace(l, ds);
    forall w | w in b
      ensures w.path != p
    {
      assert w.path[..1][0] == l;
    }
    ReadUnwritten(b, p);
  }

  lemma {:induction false} LetterBlocksRead(ls: seq<string>, ds: seq<Release>, p: Path)
    requires Distinct(ls)
    requires |p| >= 1
    ensures p[0] !in ls ==> Read(LetterBlocks(ls, ds), p) == None
    ensures p[0] in ls ==> Read(LetterBlocks(ls, ds), p) == Read(LetterBlock(p[0], ds), p)
    decreases |ls|
  {
    if |ls| == 0 {
      ReadUnwritten([], p);
    } else {
      DistinctTail(ls);
      LetterBlocksRead(ls[1..], ds, p);
      ReadConcat(LetterBlock(ls[0], ds), LetterBlocks(ls[1..], ds), p);
      if p[0] != ls[0] {
        LetterBlockMiss(ls[0], ds, p);
      }
    }
  }

  /** Reading `[l, ...]` from the catalog goes straight to the block of
      letter `l`. */
  lemma ReadLetterBlock(ds: seq<Release>, d: Release, p: Path)
    requires d in ds
    requires |p| >= 1 && p[0] == Letter(d.name)
    ensures Read(CatalogWrites(ds), p) == Read(LetterBlock(Letter(d.name), ds), p)
  {
    assert Letter(d.name) in Letters(ds);
    var ls := FirstOccurrences(Letters(ds));
    var root := Write([], RootIndex(ApiVersion, SortedSet(ls)));
    assert CatalogWrites(ds) == [root] + LetterBlocks(ls, ds);
    ReadConcat([root], LetterBlocks(ls, ds), p);
    ReadSingle(root, p);
    LetterBlocksRead(ls, ds, p);
  }

  /** Reading `[l, n, ...]` from the catalog goes straight to the block of
      name `n` in letter group `l`. */
  lemma ReadNameBlock(ds: seq<Release>, d: Release, p: Path)
    requires d in ds
    requires |p| >= 2 && p[0] == Letter(d.name) && p[1] == d.name
    ensures d.name in Names(InGroup(ds, Letter(d.name)))
    ensures Read(CatalogWrites(ds), p)
         == Read(NameBlockOf(Letter(d.name), d.name, InGroup(ds, Letter(d.name))), p)
  {
    var l := Letter(d.name);
    ReadLetterBlock(ds, d, p);
    var g := InGroup(ds, l);
    assert d in g;
    assert d.name in Names(g);
    var ns := FirstOccurrences(Names(g));
    var lw := Write([l], LetterIndex(ApiVersion, SortedSet(Names(g))));
    ReadConcat([lw], NameBlocks(l, ns, g), p);
    ReadSingle(lw, p);
    NameBlocksRead(l, ns, g, p);
  }

  // ---- facts about the groups ----

  lemma {:induction false} NamedInGroup(ds: seq<Release>, l: string, n: Name)
    requires Letter(n) == l
    ensures Named(InGroup(ds, l), n) == Named(ds, n)
    decreases |ds|
  {
    if |ds| > 0 {
      NamedInGroup(ds[1..], l, n);
    }
  }

  lemma {:induction false} FirstNamedIsHead(ds: seq<Release>, i: nat)
    requires i < |ds|
    requires forall j :: 0 <= j < i ==> ds[j].name != ds[i].name
    ensures |Named(ds, ds[i].name)| > 0 && Named(ds, ds[i].name)[0] == ds[i]
    decreases i
  {
    if i > 0 {
      FirstNamedIsHead(ds[1..], i - 1);
    }
  }

  lemma {:induction false} NoLaterVersion(h: seq<Release>, v: string)
    requires forall j :: 0 <= j < |h| ==> h[j].version != v
    ensures LastWithVersion(h, v) == None
    decreases |h|
  {
    if |h| > 0 {
      NoLaterVersion(h[1..], v);
    }
  }

  lemma {:induction false} LastReleaseWins(ds: seq<Release>, i: nat)
    requires i < |ds|
    requires forall j :: i < j < |ds| ==> !(ds[j].name == ds[i].name && ds[j].version == ds[i].version)
    ensures LastWithVersion(Named(ds, ds[i].name), ds[i].version) == Some(ds[i])
    decreases i
  {
    var n := ds[i].name;
    var v := ds[i].version;
    if i > 0 {
      LastReleaseWins(ds[1..], i - 1);
    } else {
      forall j | 0 <= j < |Named(ds[1..], n)|
        ensures Named(ds[1..], n)[j].version != v
      {
        var e := Named(ds[1..], n)[j];
        assert e in Named(ds[1..], n);
        var k :| 0 <= k < |ds[1..]| && ds[1..][k] == e;
        assert ds[k + 1] == e;
      }
      NoLaterVersion(Named(ds[1..], n), v);
    }
  }

  // ---- the four levels of the catalog ----

  /** The root index lists, strictly sorted and once each, the lower-cased
      first letter of every descriptor, whether or not it published any
      variant. */
  lemma RootIndexListsLetters(ds: seq<Release>)
    ensures Read(CatalogWrites(ds), []).Some?
    ensures var r := Read(CatalogWrites(ds), []).value;
      && r.RootIndex? && r.schema == ApiVersion
      && StrictlySorted(r.directories)
      && forall l :: l in r.directories <==> exists d :: d in ds && Letter(d.name) == l
  {
    var ls := FirstOccurrences(Letters(ds));
    var root := Write([], RootIndex(ApiVersion, SortedSet(ls)));
    LetterBlocksPlace(ls, ds);
    ReadUnwritten(LetterBlocks(ls, ds), []);
    ReadConcat([root], LetterBlocks(ls, ds), []);
    ReadSingle(root, []);
  }

  /** The index of letter `l` exists exactly when some descriptor is filed
      under `l`, and lists, strictly sorted and once each, their names. */
  lemma LetterIndexListsNames(ds: seq<Release>, l: string)
    ensures (exists d :: d in ds && Letter(d.name) == l) <==> Read(CatalogWrites(ds), [l]).Some?
    ensures Read(CatalogWrites(ds), [l]).Some? ==>
      var r := Read(CatalogWrites(ds), [l]).value;
      && r.LetterIndex? && r.schema == ApiVersion
      && StrictlySorted(r.binaries)
      && forall n :: n in r.binaries <==> exists d :: d in ds && Letter(d.name) == l && d.name == n
  {
    var ls := FirstOccurrences(Letters(ds));
    var root := Write([], RootIndex(ApiVersion, SortedSet(ls)));
    ReadConcat([root], LetterBlocks(ls, ds), [l]);
    ReadSingle(root, [l]);
    LetterBlocksRead(ls, ds, [l]);
    var g := InGroup(ds, l);
    var ns := FirstOccurrences(Names(g));
    var lw := Write([l], LetterIndex(ApiVersion, SortedSet(Names(g))));
    NameBlocksPlace(l, ns, g);
    ReadUnwritten(NameBlocks(l, ns, g), [l]);
    ReadConcat([lw], NameBlocks(l, ns, g), [l]);
    ReadSingle(lw, [l]);
  }

  /** The index of a binary carries the metadata of the first descriptor
      with that name, and lists, strictly sorted and once each, the versions
      of every descriptor with that name. */
  lemma BinaryIndexFromFirst(ds: seq<Release>, i: nat)
    requires i < |ds|
    requires forall j :: 0 <= j < i ==> ds[j].name != ds[i].name
    ensures Read(CatalogWrites(ds), [Letter(ds[i].name), ds[i].name]).Some?
    ensures var d := ds[i];
      var r := Read(CatalogWrites(ds), [Letter(d.name), d.name]).value;
      && r.BinaryIndex?
      && r == BinaryIndex(d.name, d.description, d.homepage, d.repository, d.license, d.tags, r.versions)
      && StrictlySorted(r.versions)
      && forall v :: v in r.versions <==> exists e :: e in ds && e.name == d.name && e.version == v
  {
    var d := ds[i];
    var l := Letter(d.name);
    var p := [l, d.name];
    assert d in ds;
    ReadNameBlock(ds, d, p);
    var g := InGroup(ds, l);
    NamedInGroup(ds, l, d.name);
    FirstNamedIsHead(ds, i);
    var h := Named(ds, d.name);
    var bw := Write([l, d.name], BinaryIndex(d.name, d.description, d.homepage, d.repository,
                                             d.license, d.tags, SortedSet(Versions(h))));
    assert NameBlockOf(l, d.name, g) == [bw] + VersionWrites(l, d.name, h);
    VersionWritesPlace(l, d.name, h);
    ReadUnwritten(VersionWrites(l, d.name, h), p);
    ReadConcat([bw], VersionWrites(l, d.name, h), p);
    ReadSingle(bw, p);
  }

  /** The index of a release holds the architectures map of the last
      descriptor with that name and version, unchanged: a later duplicate
      overwrites an earlier one. */
  lemma VersionIndexFromLast(ds: seq<Release>, i: nat)
    requires i < |ds|
    requires forall j :: i < j < |ds| ==> !(ds[j].name == ds[i].name && ds[j].version == ds[i].version)
    ensures Read(CatalogWrites(ds), [Letter(ds[i].name), ds[i].name, ds[i].version])
         == Some(VersionIndex(ds[i].name, ds[i].version, ds[i].architectures))
  {
    var d := ds[i];
    var l := Letter(d.name);
    var p := [l, d.name, d.version];
    assert d in ds;
    ReadNameBlock(ds, d, p);
    var g := InGroup(ds, l);
    NamedInGroup(ds, l, d.name);
    var h := Named(ds, d.name);
    assert d in h;
    var first := h[0];
    var bw := Write([l, d.name], BinaryIndex(d.name, first.description, first.homepage,
                                             first.repository, first.license, first.tags,
                                             SortedSet(Versions(h))));
    assert NameBlockOf(l, d.name, g) == [bw] + VersionWrites(l, d.name, h);
    LastReleaseWins(ds, i);
    VersionWritesRead(l, d.name, h, d.version);
    ReadConcat([bw], VersionWrites(l, d.name, h), p);
  }

  // ---- nothing else is written ----

  /** The directories the catalog describes: the root, the letter of some
      descriptor, one of its names, or one of its (name, version) pairs. */
  ghost predicate Catalogued(ds: seq<Release>, p: Path)
  {
    || p == []
    || (|p| == 1 && exists d :: d in ds && Letter(d.name) == p[0])
    || (|p| == 2 && exists d :: d in ds && Letter(d.name) == p[0] && d.name == p[1])
    || (|p| == 3 && exists d :: d in ds && Letter(d.name) == p[0] && d.name == p[1] && d.version == p[2])
  }

  lemma {:induction false} VersionWritesCatalogued(ds: seq<Release>, l: string, n: string, h: seq<Release>)
    requires forall d :: d in h ==> d in ds && Letter(d.name) == l && d.name == n
    ensures forall w :: w in VersionWrites(l, n, h) ==> Catalogued(ds, w.path)
    decreases |h|
  {
    if |h| > 0 {
      assert h[0] in h;
      assert forall d :: d in h[1..] ==> d in h;
      VersionWritesCatalogued(ds, l, n, h[1..]);
    }
  }

  lemma {:induction false} NameBlocksCatalogued(ds: seq<Release>, l: string, ns: seq<string>, g: seq<Release>)
    requires forall n :: n in ns ==> n in Names(g)
    requires forall d :: d in g ==> d in ds && Letter(d.name) == l
    ensures forall w :: w in NameBlocks(l, ns, g) ==> Catalogued(ds, w.path)
    decreases |ns|
  {
    if |ns| > 0 {
      var n := ns[0];
      assert n in ns;
      var h := Named(g, n);
      var d :| d in g && d.name == n;
      assert Catalogued(ds, [l, n]);
      VersionWritesCatalogued(ds, l, n, h);
      NameBlocksCatalogued(ds, l, ns[1..], g);
    }
  }

  lemma {:induction false} LetterBlocksCatalogued(ds: seq<Release>, ls: seq<string>)
    requires forall l :: l in ls ==> l in Letters(ds)
    ensures forall w :: w in LetterBlocks(ls, ds) ==> Catalogued(ds, w.path)
    decreases |ls|
  {
    if |ls| > 0 {
      var l := ls[0];
      assert l in ls;
      var g := InGroup(ds, l);
      var d :| d in ds && Letter(d.name) == l;
      assert Catalogued(ds, [l]);
      NameBlocksCatalogued(ds, l, FirstOccurrences(Names(g)), g);
      LetterBlocksCatalogued(ds, ls[1..]);
    }
  }

  /** The catalog writes no index outside the four levels it describes: no
      letter, name or (name, version) directory without a descriptor behind it. */
  lemma OnlyCataloguedPaths(ds: seq<Release>, p: Path)
    ensures Read(CatalogWrites(ds), p).Some? ==> Catalogued(ds, p)
  {
    var ws := CatalogWrites(ds);
    var ls := FirstOccurrences(Letters(ds));
    LetterBlocksCatalogued(ds, ls);
    assert forall w :: w in ws ==> Catalogued(ds, w.path) by {
      assert ws == [Write([], RootIndex(ApiVersion, SortedSet(ls)))] + LetterBlocks(ls, ds);
    }
    if !Catalogued(ds, p) {
      ReadUnwritten(ws, p);
    }
  }
}

=== FILE: fetch.dfy ===
/**
 * Fetching one architecture variant of one release (`download_binary` and
 * `extract_binary`): the checksum gate, the raw copy or archive extraction,
 * and the record returned for the version index.
 *
 * The network response, the SHA-256 digest and the archive decoders are
 * inputs: `download` is what became of the request, and `Tools` carries the
 * digest and unpacking functions. What the fetch does to the output tree is
 * recorded as a list of effects in the order the source performs them.
 */
module Fetch {
  import opened Base
  import opened Paths

  /** What became of the streamed HTTP request. */
  datatype Response =
    | Refused          // `requests.get` or `raise_for_status` raised
    | Interrupted      // reading the body with `iter_content` raised
    | Body(data: Bytes)

  /** The archive decoders `extract_binary` dispatches to. `Tar` opens the
      archive in mode `r`, which also reads compressed tar files. */
  datatype ArchiveFormat = Zip | TarGz | TarXz | Tar

  /** What unpacking an archive and looking up an entry yields. */
  datatype Unpacked =
    | Entry(bytes: Bytes)   // the entry exists; these are its contents
    | NoEntry               // the archive was unpacked but has no such file
    | Unreadable            // the decoder raised (corrupt or mislabelled archive)

  datatype Tools = Tools(
    digest: Bytes -> string,                             // lower-case hex SHA-256
    unpack: (ArchiveFormat, Bytes, string) -> Unpacked)  // unpack, then read entry

  /** One entry of a descriptor's `architectures` mapping. */
  datatype VariantSpec = VariantSpec(
    url: string,
    kind: string,                    // the `type` field
    pathInArchive: Option<string>,   // `binary_path_in_archive`
    sha256: Option<string>)

  /** The record the version index keeps for a published variant. */
  datatype Published = Published(url: string, size: nat, sha256: Option<string>)

  datatype FetchError =
    | DownloadFailed(url: string)
    | ChecksumMismatch(expected: string, actual: string)
    | MissingArchivePath(kind: string)
    | UnsupportedArchive(kind: string)
    | EntryNotFound(entry: string)
    | ExtractionFailed(kind: string)

  /** A change to the output tree, with paths relative to the output root. */
  datatype Effect =
    | MakeDir(dir: Path)
    | WriteFile(file: Path, data: Bytes)
    | MakeExecutable(file: Path)   // chmod 0o755

  datatype FetchRun = FetchRun(effects: seq<Effect>, result: Result<Published, FetchError>)

  /** Python truthiness of an optional string: present and non-empty. */
  predicate Declared(o: Option<string>)
  {
    o.Some? && o.value != ""
  }

  /** The checksum gate passes when no checksum is declared, or when the
      digest of the downloaded bytes equals it character for character. */
  predicate ChecksumOk(sha256: Option<string>, data: Bytes, digest: Bytes -> string)
  {
    Declared(sha256) ==> digest(data) == sha256.value
  }

  /** The `type` strings `extract_binary` accepts, and the decoder each selects. */
  function ParseFormat(kind: string): (f: Option<ArchiveFormat>)
    ensures f.Some? <==> kind in ["zip", "tar.gz", "tgz", "tar.xz", "tar"]
    ensures f == Some(Zip) <==> kind == "zip"
    ensures f == Some(TarGz) <==> kind == "tar.gz" || kind == "tgz"
    ensures f == Some(TarXz) <==> kind == "tar.xz"
    ensures f == Some(Tar) <==> kind == "tar"
  {
    if kind == "zip" then Some(Zip)
    else if kind == "tar.gz" || kind == "tgz" then Some(TarGz)
    else if kind == "tar.xz" then Some(TarXz)
    else if kind == "tar" then Some(Tar)
    else None
  }

  /** `extract_binary` without the file system: dispatch on the type, then
      look the entry up in the unpacked archive. */
  function Extract(kind: string, data: Bytes, entry: string,
                   unpack: (ArchiveFormat, Bytes, string) -> Unpacked): (r: Result<Bytes, FetchError>)
    ensures ParseFormat(kind).None? ==> r == Err(UnsupportedArchive(kind))
    ensures r.Ok? <==> ParseFormat(kind).Some? && unpack(ParseFormat(kind).value, data, entry).Entry?
    ensures r.Ok? ==> unpack(ParseFormat(kind).value, data, entry) == Entry(r.value)
    ensures ParseFormat(kind).Some? && unpack(ParseFormat(kind).value, data, entry).NoEntry?
            ==> r == Err(EntryNotFound(entry))
  {
    match ParseFormat(kind)
    case None => Err(UnsupportedArchive(kind))
    case Some(f) =>
      match unpack(f, data, entry)
      case Entry(b) => Ok(b)
      case NoEntry => Err(EntryNotFound(entry))
      case Unreadable => Err(ExtractionFailed(kind))
  }

  predicate NoFileWritten(effects: seq<Effect>)
  {
    forall e :: e in effects ==> !e.WriteFile?
  }

  /** The contents `file` holds after the effects: its last write, if any. */
  function LastWrite(effects: seq<Effect>, file: Path): Option<Bytes>
  {
    if |effects| == 0 then None
    else
      var e := effects[|effects| - 1];
      if e.WriteFile? && e.file == file then Some(e.data)
      else LastWrite(effects[..|effects| - 1], file)
  }

  function EffectPath(e: Effect): Path
  {
    match e
    case MakeDir(d) => d
    case WriteFile(f, _) => f
    case MakeExecutable(f) => f
  }

  /** `download_binary` for one variant of the release `name`/`version`. */
  function FetchVariant(name: Name, version: string, arch: string, spec: VariantSpec,
                        download: Response, tools: Tools): (run: FetchRun)
    // a failed fetch leaves no file behind
    ensures run.result.Err? ==> NoFileWritten(run.effects)
    // a fetch touches nothing outside its own nested directory
    ensures forall e :: e in run.effects ==> IsPrefix(NestedDir(name, version, arch), EffectPath(e))
    // success: the download passed the checksum gate, the output file was
    // written and then made executable, and the record describes that file
    ensures run.result.Ok? ==>
      && download.Body?
      && ChecksumOk(spec.sha256, download.data, tools.digest)
      && LastWrite(run.effects, OutputFile(name, version, arch)).Some?
      && run.result.value.size == |LastWrite(run.effects, OutputFile(name, version, arch)).value|
      && run.effects[|run.effects| - 1] == MakeExecutable(OutputFile(name, version, arch))
      && run.result.value.url == PublicUrl(name, version, arch)
      && run.result.value.sha256 == spec.sha256
  {
    var dir := NestedDir(name, version, arch);
    var file := OutputFile(name, version, arch);
    assert IsPrefix(dir, file) by {
      assert file[..|dir|] == dir;
    }
    match download
    case Refused => FetchRun([], Err(DownloadFailed(spec.url)))
    // the nested directory is created before the body is streamed to disk
    case Interrupted => FetchRun([MakeDir(dir)], Err(DownloadFailed(spec.url)))
    case Body(data) =>
      if !ChecksumOk(spec.sha256, data, tools.digest) then
        FetchRun([MakeDir(dir)], Err(ChecksumMismatch(spec.sha256.value, tools.digest(data))))
      else if spec.kind == "raw" then
        FetchRun([MakeDir(dir), WriteFile(file, data), MakeExecutable(file)],
                 Ok(Published(PublicUrl(name, version, arch), |data|, spec.sha256)))
      else if !Declared(spec.pathInArchive) then
        FetchRun([MakeDir(dir)], Err(MissingArchivePath(spec.kind)))
      else
        match Extract(spec.kind, data, spec.pathInArchive.value, tools.unpack)
        case Err(e) => FetchRun([MakeDir(dir)], Err(e))
        case Ok(bytes) =>
          // extract_binary creates the parent directory a second time
          FetchRun([MakeDir(dir), MakeDir(dir), WriteFile(file, bytes), MakeExecutable(file)],
                   Ok(Published(PublicUrl(name, version, arch), |bytes|, spec.sha256)))
  }

  /** The bytes a successful fetch publishes: the download itself for `raw`,
      otherwise the requested entry of the archive. */
  ghost predicate Publishes(spec: VariantSpec, data: Bytes, tools: Tools, out: Bytes)
  {
    if spec.kind == "raw" then out == data
    else
      && Declared(spec.pathInArchive)
      && ParseFormat(spec.kind).Some?
      && tools.unpack(ParseFormat(spec.kind).value, data, spec.pathInArchive.value) == Entry(out)
  }

  /** When a fetch succeeds, stated independently of the fetch itself. */
  ghost predicate Fetchable(spec: VariantSpec, download: Response, tools: Tools)
  {
    && download.Body?
    && ChecksumOk(spec.sha256, download.data, tools.digest)
    && (spec.kind == "raw" || (exists out :: Publishes(spec, download.data, tools, out)))
  }

  /** A fetch succeeds exactly when the download arrived, passed the checksum
      gate, and is either raw or an accepted archive holding the entry. */
  lemma FetchSucceedsIff(name: Name, version: string, arch: string, spec: VariantSpec,
                         download: Response, tools: Tools)
    ensures FetchVariant(name, version, arch, spec, download, tools).result.Ok?
            <==> Fetchable(spec, download, tools)
  {
    var run := FetchVariant(name, version, arch, spec, download, tools);
    if download.Body? && ChecksumOk(spec.sha256, download.data, tools.digest) && spec.kind != "raw"
       && Declared(spec.pathInArchive) && ParseFormat(spec.kind).Some? {
      var u := tools.unpack(ParseFormat(spec.kind).value, download.data, spec.pathInArchive.value);
      if u.Entry? {
        assert Publishes(spec, download.data, tools, u.bytes);
      }
    }
  }

  /** The published file holds what `Publishes` says: the download verbatim
      for `raw`, the archive entry otherwise. */
  lemma PublishedContents(name: Name, version: string, arch: string, spec: VariantSpec,
                          download: Response, tools: Tools)
    requires FetchVariant(name, version, arch, spec, download, tools).result.Ok?
    ensures Publishes(spec, download.data, tools,
                      LastWrite(FetchVariant(name, version, arch, spec, download, tools).effects,
                                OutputFile(name, version, arch)).value)
  {
  }

  /** The checksum gate: a declared checksum the download does not match
      fails the fetch before any file is written; only the nested directory
      has been created by then. */
  lemma ChecksumGate(name: Name, version: string, arch: string, spec: VariantSpec,
                     data: Bytes, tools: Tools)
    requires Declared(spec.sha256) && tools.digest(data) != spec.sha256.value
    ensures FetchVariant(name, version, arch, spec, Body(data), tools)
         == FetchRun([MakeDir(NestedDir(name, version, arch))],
                     Err(ChecksumMismatch(spec.sha256.value, tools.digest(data))))
  {
  }

  /** A body that breaks off while streaming fails the fetch after the nested
      directory was created: the directory stays, no file is written. A
      refused request touches nothing. */
  lemma DownloadFailureEffects(name: Name, version: string, arch: string, spec: VariantSpec,
                               tools: Tools)
    ensures FetchVariant(name, version, arch, spec, Interrupted, tools)
         == FetchRun([MakeDir(NestedDir(name, version, arch))], Err(DownloadFailed(spec.url)))
    ensures FetchVariant(name, version, arch, spec, Refused, tools)
         == FetchRun([], Err(DownloadFailed(spec.url)))
  {
  }

  /** With no checksum declared (absent or empty) the digest is never
      consulted: any two digest functions give the same fetch. */
  lemma ChecksumSkipped(name: Name, version: string, arch: string, spec: VariantSpec,
                        download: Response, tools: Tools, digest': Bytes -> string)
    requires !Declared(spec.sha256)
    ensures FetchVariant(name, version, arch, spec, download, tools)
         == FetchVariant(name, version, arch, spec, download, tools.(digest := digest'))
  {
  }

  /** An archive type with no entry path fails before any decoder runs: the
      outcome does not depend on the unpacking function. */
  lemma MissingPathFailsEarly(name: Name, version: string, arch: string, spec: VariantSpec,
                              data: Bytes, tools: Tools,
                              unpack': (ArchiveFormat, Bytes, string) -> Unpacked)
    requires spec.kind != "raw" && !Declared(spec.pathInArchive)
    requires ChecksumOk(spec.sha256, data, tools.digest)
    ensures FetchVariant(name, version, arch, spec, Body(data), tools).result
         == Err(MissingArchivePath(spec.kind))
    ensures FetchVariant(name, version, arch, spec, Body(data), tools)
         == FetchVariant(name, version, arch, spec, Body(data), tools.(unpack := unpack'))
  {
  }

  /** The error a failed fetch reports names the first check that failed, in
      the order download, checksum, entry path, type, entry lookup. */
  lemma FetchErrorCause(name: Name, version: string, arch: string, spec: VariantSpec,
                        download: Response, tools: Tools)
    ensures var r := FetchVariant(name, version, arch, spec, download, tools).result;
      && (r == Err(DownloadFailed(spec.url)) <==> !download.Body?)
      && (r.Err? && r.error.ChecksumMismatch? <==>
            download.Body? && !ChecksumOk(spec.sha256, download.data, tools.digest))
      && (r.Err? && r.error.MissingArchivePath? <==>
            download.Body? && ChecksumOk(spec.sha256, download.data, tools.digest)
            && spec.kind != "raw" && !Declared(spec.pathInArchive))
      && (r.Err? && r.error.UnsupportedArchive? <==>
            download.Body? && ChecksumOk(spec.sha256, download.data, tools.digest)
            && spec.kind != "raw" && Declared(spec.pathInArchive) && ParseFormat(spec.kind).None?)
      && (r.Err? && r.error.EntryNotFound? <==>
            download.Body? && ChecksumOk(spec.sha256, download.data, tools.digest)
            && spec.kind != "raw" && Declared(spec.pathInArchive) && ParseFormat(spec.kind).Some?
            && tools.unpack(ParseFormat(spec.kind).value, download.data, spec.pathInArchive.value).NoEntry?)
  {
  }
}

=== FILE: ordering.dfy ===
/**
 * Orderings and listings used by the catalog: Python's comparison of `str`
 * values, the sorted de-duplicated listings that `sorted(set(...))` produces,
 * and the key order of a `dict` filled by appending (first insertion wins).
 */
module Ordering {

  /** Python's `a < b` on strings: code point by code point, and a proper
      prefix sorts before the longer string. */
  predicate Less(a: string, b: string)
    decreases |a|
  {
    if |a| == 0 then |b| > 0
    else if |b| == 0 then false
    else if a[0] != b[0] then a[0] < b[0]
    else Less(a[1..], b[1..])
  }

  lemma {:induction false} LessIrreflexive(a: string)
    ensures !Less(a, a)
    decreases |a|
  {
    if |a| > 0 {
      LessIrreflexive(a[1..]);
    }
  }

  lemma {:induction false} LessTransitive(a: string, b: string, c: string)
    requires Less(a, b) && Less(b, c)
    ensures Less(a, c)
    decreases |a|
  {
    if |a| > 0 && a[0] == b[0] && b[0] == c[0] {
      LessTransitive(a[1..], b[1..], c[1..]);
    }
  }

  lemma {:induction false} LessTotal(a: string, b: string)
    ensures a == b || Less(a, b) || Less(b, a)
    decreases |a|
  {
    if |a| > 0 && |b| > 0 && a[0] == b[0] {
      LessTotal(a[1..], b[1..]);
      if a[1..] == b[1..] {
        assert a == [a[0]] + a[1..];
        assert b == [b[0]] + b[1..];
      }
    }
  }

  /** Every element is strictly below every later one: sorted and free of duplicates. */
  ghost predicate StrictlySorted(s: seq<string>)
  {
    forall i, j :: 0 <= i < j < |s| ==> Less(s[i], s[j])
  }

  predicate Distinct(s: seq<string>)
  {
    forall i, j :: 0 <= i < j < |s| ==> s[i] != s[j]
  }

  /** Places `x` into a strictly sorted listing unless it is already there. */
  function Insert(x: string, s: seq<string>): (r: seq<string>)
    requires StrictlySorted(s)
    ensures StrictlySorted(r)
    ensures forall y :: y in r <==> y == x || y in s
    decreases |s|
  {
    if |s| == 0 then [x]
    else if x == s[0] then s
    else if Less(x, s[0]) then
      assert StrictlySorted([x] + s) by {
        forall j | 0 < j < |s| {
          LessTransitive(x, s[0], s[j]);
        }
      }
      [x] + s
    else
      LessTotal(x, s[0]);
      var tail := Insert(x, s[1..]);
      assert forall y :: y in tail ==> Less(s[0], y) by {
        forall y | y in tail
          ensures Less(s[0], y)
        {
          if y != x {
            var j :| 0 <= j < |s[1..]| && s[1..][j] == y;
            assert s[j + 1] == y;
          }
        }
      }
      assert StrictlySorted([s[0]] + tail) by {
        forall i, j | 0 <= i < j < |[s[0]] + tail|
          ensures Less(([s[0]] + tail)[i], ([s[0]] + tail)[j])
        {
          if i == 0 {
            assert ([s[0]] + tail)[j] == tail[j - 1];
          } else {
            assert ([s[0]] + tail)[i] == tail[i - 1];
            assert ([s[0]] + tail)[j] == tail[j - 1];
          }
        }
      }
      assert forall y :: y in s <==> y == s[0] || y in s[1..] by {
        assert s == [s[0]] + s[1..];
      }
      [s[0]] + tail
  }

  /** Python's `sorted(set(xs))` for strings: the strictly increasing listing of
      exactly the elements of `xs`. */
  function SortedSet(xs: seq<string>): (r: seq<string>)
    ensures StrictlySorted(r)
    ensures forall y :: y in r <==> y in xs
    decreases |xs|
  {
    if |xs| == 0 then []
    else
      var r := Insert(xs[0], SortedSet(xs[1..]));
      assert forall y :: y in xs <==> y == xs[0] || y in xs[1..] by {
        assert xs == [xs[0]] + xs[1..];
      }
      r
  }

  lemma HeadIsMember(s: seq<string>)
    ensures |s| > 0 ==> s[0] in s
  {
  }

  /** A strictly sorted listing is determined by its elements alone, so two
      runs over the same set of names produce the same listing. */
  lemma {:induction false} SortedUnique(a: seq<string>, b: seq<string>)
    requires StrictlySorted(a) && StrictlySorted(b)
    requires forall y :: y in a <==> y in b
    ensures a == b
    decreases |a|
  {
    if |a| == 0 {
      HeadIsMember(b);
    } else {
      assert a[0] in b;
      assert |b| > 0;
      if a[0] != b[0] {
        var k :| 0 <= k < |b| && b[k] == a[0];
        assert b[0] in b;
        var m :| 0 <= m < |a| && a[m] == b[0];
        assert Less(b[0], a[0]) by {
          assert k > 0;
        }
        assert Less(a[0], b[0]) by {
          assert m > 0;
        }
        LessTransitive(a[0], b[0], a[0]);
        LessIrreflexive(a[0]);
        assert false;
      }
      forall y
        ensures y in a[1..] <==> y in b[1..]
      {
        if y in a[1..] {
          var i :| 0 <= i < |a[1..]| && a[1..][i] == y;
          assert Less(a[0], a[i + 1]);
          LessIrreflexive(y);
          assert y in b && y != b[0];
          var j :| 0 <= j < |b| && b[j] == y;
          assert b[1..][j - 1] == y;
        }
        if y in b[1..] {
          var i :| 0 <= i < |b[1..]| && b[1..][i] == y;
          assert Less(b[0], b[i + 1]);
          LessIrreflexive(y);
          assert y in a && y != a[0];
          var j :| 0 <= j < |a| && a[j] == y;
          assert a[1..][j - 1] == y;
        }
      }
      SortedUnique(a[1..], b[1..]);
      assert a == [a[0]] + a[1..];
      assert b == [b[0]] + b[1..];
    }
  }

  /** The position of the first occurrence of `y` in `xs`. */
  function FirstIndex(xs: seq<string>, y: string): (k: nat)
    requires y in xs
    ensures k < |xs| && xs[k] == y && y !in xs[..k]
  {
    if xs[0] == y then 0
    else
      assert y in xs[1..] by { assert xs == [xs[0]] + xs[1..]; }
      var k := 1 + FirstIndex(xs[1..], y);
      assert xs[..k] == [xs[0]] + xs[1..][..k - 1];
      k
  }

  /** The first occurrence is the only position holding `y` with no earlier `y`. */
  lemma FirstIndexUnique(xs: seq<string>, y: string, k: nat)
    requires k < |xs| && xs[k] == y && y !in xs[..k]
    ensures FirstIndex(xs, y) == k
  {
    var m := FirstIndex(xs, y);
    assert forall t :: 0 <= t < k ==> xs[..k][t] == xs[t];
    assert forall t :: 0 <= t < m ==> xs[..m][t] == xs[t];
  }

  /** Appending an element leaves the first occurrences of the others where
      they were, and puts a new element's first occurrence at the end. */
  lemma FirstIndexAppend(front: seq<string>, last: string, y: string)
    requires y in front + [last]
    ensures y in front ==> FirstIndex(front + [last], y) == FirstIndex(front, y)
    ensures y !in front ==> FirstIndex(front + [last], y) == |front|
  {
    var xs := front + [last];
    if y in front {
      var k := FirstIndex(front, y);
      assert xs[..k] == front[..k];
      FirstIndexUnique(xs, y, k);
    } else {
      assert xs[..|front|] == front;
      FirstIndexUnique(xs, y, |front|);
    }
  }

  /** Every element of `r` occurs in `xs`, and `r` lists them in the order of
      their first occurrences there. */
  predicate InFirstOccurrenceOrder(r: seq<string>, xs: seq<string>)
  {
    && (forall y :: y in r ==> y in xs)
    && forall i, j :: 0 <= i < j < |r| ==> FirstIndex(xs, r[i]) < FirstIndex(xs, r[j])
  }

  /** The keys of a `dict` filled by appending each element in turn: every
      distinct element once, in the order of its first occurrence. */
  function FirstOccurrences(xs: seq<string>): (r: seq<string>)
    ensures Distinct(r)
    ensures forall y :: y in r <==> y in xs
    ensures InFirstOccurrenceOrder(r, xs)
    decreases |xs|
  {
    if |xs| == 0 then []
    else
      var front := xs[..|xs| - 1];
      var last := xs[|xs| - 1];
      var r := FirstOccurrences(front);
      assert xs == front + [last];
      assert forall y :: y in xs <==> y in front || y == last;
      OrderKept(front, last, r);
      if last in r then r else OrderAppended(front, last, r); r + [last]
  }

  /** Appending `last` to the input keeps the listing of the rest in first-
      occurrence order. */
  lemma OrderKept(front: seq<string>, last: string, r: seq<string>)
    requires InFirstOccurrenceOrder(r, front)
    ensures InFirstOccurrenceOrder(r, front + [last])
  {
    var xs := front + [last];
    forall y | y in r
      ensures y in xs && FirstIndex(xs, y) == FirstIndex(front, y)
    {
      FirstIndexAppend(front, last, y);
    }
  }

  /** A `last` not seen before goes after all of the listing of the rest. */
  lemma OrderAppended(front: seq<string>, last: string, r: seq<string>)
    requires InFirstOccurrenceOrder(r, front)
    requires last !in front
    ensures InFirstOccurrenceOrder(r + [last], front + [last])
  {
    var xs := front + [last];
    var r' := r + [last];
    OrderKept(front, last, r);
    FirstIndexAppend(front, last, last);
    forall i, j | 0 <= i < j < |r'|
      ensures FirstIndex(xs, r'[i]) < FirstIndex(xs, r'[j])
    {
      assert r'[i] == r[i] && r[i] in r;
      if j < |r| {
        assert r'[j] == r[j] && r[j] in r;
      }
    }
  }
}

=== FILE: paths.dfy ===
/**
 * Where a published binary lives: the nested directory
 * `<letter>/<name>/<version>/<arch>/` under the output root, the file name
 * inside it, and the public url that the version index records for it.
 */
module Paths {
  import opened Base

  /** A location under the output root, one directory name per segment. */
  type Path = seq<string>

  /** `str.lower` on one character, for the ASCII letters. */
  function Lower(c: char): (l: char)
    ensures 'A' <= c <= 'Z' ==> l as int == c as int + 32
    ensures !('A' <= c <= 'Z') ==> l == c
  {
    if 'A' <= c <= 'Z' then (c as int + 32) as char else c
  }

  /** The bucket a binary is filed under: its first character, lower-cased. */
  function Letter(name: Name): (l: string)
    ensures |l| == 1
  {
    [Lower(name[0])]
  }

  /** `normalize_arch`: the architecture label is kept verbatim. */
  function NormalizeArch(arch: string): string
  {
    arch
  }

  function Extension(arch: string): string
  {
    if IsPrefix("windows", arch) then ".exe" else ""
  }

  /** The published file name: the binary name, plus `.exe` for Windows targets. */
  function FileName(name: Name, arch: string): (f: string)
    ensures IsPrefix("windows", arch) ==> f == name + ".exe"
    ensures !IsPrefix("windows", arch) ==> f == name
  {
    name + Extension(arch)
  }

  /** `create_nested_path`, relative to the output root. */
  function NestedDir(name: Name, version: string, arch: string): (p: Path)
    ensures |p| == 4 && p[0] == Letter(name) && p[1] == name && p[2] == version && p[3] == arch
  {
    [Letter(name), name, version, NormalizeArch(arch)]
  }

  /** The file a variant is written to, relative to the output root. */
  function OutputFile(name: Name, version: string, arch: string): Path
  {
    NestedDir(name, version, arch) + [FileName(name, arch)]
  }

  /** The `url` recorded for a published variant. */
  function PublicUrl(name: Name, version: string, arch: string): (u: string)
    // an absolute url path that ends in `/` and the published file's name
    ensures |u| > |FileName(name, arch)| && u[0] == '/'
    ensures u[|u| - |FileName(name, arch)| - 1..] == "/" + FileName(name, arch)
  {
    "/" + (Letter(name) + ("/" + (name + ("/" + (version + ("/" + (NormalizeArch(arch) + ("/" + FileName(name, arch)))))))))
  }

  /** Segments glued together with `sep` between neighbours. */
  function Join(segs: seq<string>, sep: char): string
  {
    if |segs| == 0 then ""
    else if |segs| == 1 then segs[0]
    else segs[0] + ([sep] + Join(segs[1..], sep))
  }

  /** The segments of `s` between occurrences of `sep` (Python's `s.split(sep)`). */
  function Split(s: string, sep: char): (parts: seq<string>)
    ensures |parts| >= 1
    decreases |s|
  {
    if |s| == 0 then [""]
    else
      var rest := Split(s[1..], sep);
      if s[0] == sep then [""] + rest
      else [[s[0]] + rest[0]] + rest[1..]
  }

  lemma {:induction false} SplitPlain(a: string, sep: char)
    requires sep !in a
    ensures Split(a, sep) == [a]
    decreases |a|
  {
    if |a| > 0 {
      SplitPlain(a[1..], sep);
      assert a == [a[0]] + a[1..];
    }
  }

  lemma {:induction false} SplitAfter(a: string, b: string, sep: char)
    requires sep !in a
    ensures Split(a + ([sep] + b), sep) == [a] + Split(b, sep)
    decreases |a|
  {
    var s := a + ([sep] + b);
    if |a| == 0 {
      assert s[1..] == b;
    } else {
      assert s[1..] == a[1..] + ([sep] + b);
      SplitAfter(a[1..], b, sep);
      assert a == [a[0]] + a[1..];
    }
  }

  /** Splitting undoes joining whenever no segment contains the separator. */
  lemma {:induction false} SplitJoin(segs: seq<string>, sep: char)
    requires |segs| >= 1
    requires forall i :: 0 <= i < |segs| ==> sep !in segs[i]
    ensures Split(Join(segs, sep), sep) == segs
    decreases |segs|
  {
    if |segs| == 1 {
      SplitPlain(segs[0], sep);
    } else {
      SplitJoin(segs[1..], sep);
      SplitAfter(segs[0], Join(segs[1..], sep), sep);
      assert segs == [segs[0]] + segs[1..];
    }
  }

  /** The public url names exactly the file the variant was written to. */
  lemma UrlNamesOutputFile(name: Name, version: string, arch: string)
    ensures PublicUrl(name, version, arch) == Join([""] + OutputFile(name, version, arch), '/')
  {
    var f := FileName(name, arch);
    var segs := [""] + OutputFile(name, version, arch);
    var l := Letter(name);
    assert segs == ["", l, name, version, arch, f];
    var j5 := Join([f], '/');
    assert j5 == f;
    var j4 := Join([arch, f], '/');
    assert [arch, f][1..] == [f];
    assert j4 == arch + ("/" + f);
    var j3 := Join([version, arch, f], '/');
    assert [version, arch, f][1..] == [arch, f];
    assert j3 == version + ("/" + j4);
    var j2 := Join([name, version, arch, f], '/');
    assert [name, version, arch, f][1..] == [version, arch, f];
    assert j2 == name + ("/" + j3);
    var j1 := Join([l, name, version, arch, f], '/');
    assert [l, name, version, arch, f][1..] == [name, version, arch, f];
    assert j1 == l + ("/" + j2);
    assert segs[1..] == [l, name, version, arch, f];
    assert Join(segs, '/') == "" + ("/" + j1);
    assert "" + ("/" + j1) == "/" + j1;
  }

  /** Reading the url back: the segments are the bucket letter, the name, the
      version, the architecture label verbatim, and the file name. */
  lemma UrlSegments(name: Name, version: string, arch: string)
    requires '/' !in name && '/' !in version && '/' !in arch
    ensures Split(PublicUrl(name, version, arch), '/')
         == ["", Letter(name), name, version, arch, FileName(name, arch)]
  {
    UrlNamesOutputFile(name, version, arch);
    var segs := [""] + OutputFile(name, version, arch);
    assert Lower(name[0]) != '/';
    assert '/' !in FileName(name, arch);
    assert forall i :: 0 <= i < |segs| ==> '/' !in segs[i];
    SplitJoin(segs, '/');
  }

  /** Different (name, version, architecture) triples never share a url. */
  lemma UrlInjective(n1: Name, v1: string, a1: string, n2: Name, v2: string, a2: string)
    requires '/' !in n1 && '/' !in v1 && '/' !in a1
    requires '/' !in n2 && '/' !in v2 && '/' !in a2
    requires PublicUrl(n1, v1, a1) == PublicUrl(n2, v2, a2)
    ensures n1 == n2 && v1 == v2 && a1 == a2
  {
    UrlSegments(n1, v1, a1);
    UrlSegments(n2, v2, a2);
  }
}

=== FILE: pipeline.dfy ===
/**
 * A whole run (`process_all`): the descriptors that load are processed in
 * file order, and the catalog is then written over exactly that list. The
 * HTML pages written afterwards are not part of this model.
 */
module Pipeline {
  import opened Base
  import opened Fetch
  import opened Paths
  import opened Processor
  import opened Catalog

  /** No later loaded descriptor shares the name and version of the one at `k`. */
  predicate LastOfRelease(ds: seq<Descriptor<VariantSpec>>, k: nat)
    requires k < |ds|
  {
    forall j :: k < j < |ds| ==> !(ds[j].name == ds[k].name && ds[j].version == ds[k].version)
  }

  /** `process_all` followed by `generate_hierarchical_apis`. */
  method Run(loads: seq<Option<Descriptor<VariantSpec>>>, env: Env)
    returns (out: seq<Release>, writes: seq<Write>)
    ensures |out| == |Loaded(loads)|
    ensures forall k :: 0 <= k < |out| ==> out[k] == Processed(Loaded(loads)[k], env)
    // the root index lists the letter of every descriptor that loaded,
    // whether or not any of its variants could be fetched
    ensures Read(writes, []).Some? && Read(writes, []).value.RootIndex?
    ensures forall l :: l in Read(writes, []).value.directories
                    <==> exists d :: d in Loaded(loads) && Letter(d.name) == l
    // the version index of a release holds the variants that survived
    // fetching for the last loaded descriptor of that release
    ensures forall k :: 0 <= k < |Loaded(loads)| && LastOfRelease(Loaded(loads), k) ==>
      var d := Loaded(loads)[k];
      Read(writes, [Letter(d.name), d.name, d.version])
        == Some(VersionIndex(d.name, d.version, Survivors(d, env)))
  {
    out := ProcessAll(loads, env);
    writes := CatalogWrites(out);
    RootOfProcessed(Loaded(loads), out, env);
    VersionsOfProcessed(Loaded(loads), out, env);
  }

  /** The root index over the processed list lists the letters of the
      descriptors as they were loaded. */
  lemma RootOfProcessed(ds: seq<Descriptor<VariantSpec>>, out: seq<Release>, env: Env)
    requires |out| == |ds|
    requires forall k :: 0 <= k < |out| ==> out[k] == Processed(ds[k], env)
    ensures Read(CatalogWrites(out), []).Some? && Read(CatalogWrites(out), []).value.RootIndex?
    ensures forall l :: l in Read(CatalogWrites(out), []).value.directories
                    <==> exists d :: d in ds && Letter(d.name) == l
  {
    RootIndexListsLetters(out);
    var dirs := Read(CatalogWrites(out), []).value.directories;
    forall l | l in dirs
      ensures exists d :: d in ds && Letter(d.name) == l
    {
      var e :| e in out && Letter(e.name) == l;
      var k :| 0 <= k < |out| && out[k] == e;
      assert ds[k] in ds && ds[k].name == e.name;
    }
    forall l | exists d :: d in ds && Letter(d.name) == l
      ensures l in dirs
    {
      var d :| d in ds && Letter(d.name) == l;
      var k :| 0 <= k < |ds| && ds[k] == d;
      assert out[k] in out && out[k].name == d.name;
    }
  }

  /** Each release's version index over the processed list holds the
      survivors of its last loaded descriptor. */
  lemma VersionsOfProcessed(ds: seq<Descriptor<VariantSpec>>, out: seq<Release>, env: Env)
    requires |out| == |ds|
    requires forall k :: 0 <= k < |out| ==> out[k] == Processed(ds[k], env)
    ensures forall k :: 0 <= k < |ds| && LastOfRelease(ds, k) ==>
      Read(CatalogWrites(out), [Letter(ds[k].name), ds[k].name, ds[k].version])
        == Some(VersionIndex(ds[k].name, ds[k].version, Survivors(ds[k], env)))
  {
    forall k | 0 <= k < |ds| && LastOfRelease(ds, k)
      ensures Read(CatalogWrites(out), [Letter(ds[k].name), ds[k].name, ds[k].version])
           == Some(VersionIndex(ds[k].name, ds[k].version, Survivors(ds[k], env)))
    {
      forall j | k < j < |out|
        ensures !(out[j].name == out[k].name && out[j].version == out[k].version)
      {
        assert out[j].name == ds[j].name && out[j].version == ds[j].version;
      }
      VersionIndexFromLast(out, k);
    }
  }
}

=== FILE: processor.dfy ===
/**
 * Processing descriptors (`process_yaml_file` and `process_all`): every
 * architecture variant of a descriptor is fetched on its own, failures are
 * dropped without disturbing their siblings, and descriptors that could not
 * be loaded are left out of the run while the rest keep their order.
 */
module Processor {
  import opened Base
  import opened Paths
  import opened Fetch

  /** `BinaryInfo`: one release of one binary. Before processing the
      architectures map to download specs (`A` = VariantSpec), afterwards to
      the records of the variants that were published (`A` = Published). */
  datatype Descriptor<A> = Descriptor(
    name: Name,
    description: string,
    homepage: string,
    repository: string,
    license: string,
    version: string,
    architectures: map<string, A>,
    tags: seq<string>)

  /** The outside world a run depends on: what each url serves, the digest
      and the decoders. */
  datatype Env = Env(net: string -> Response, tools: Tools)

  /** The fetch of architecture `arch` of descriptor `d`. */
  function FetchArch(d: Descriptor<VariantSpec>, arch: string, env: Env): FetchRun
    requires arch in d.architectures
  {
    var spec := d.architectures[arch];
    FetchVariant(d.name, d.version, arch, spec, env.net(spec.url), env.tools)
  }

  predicate Succeeds(d: Descriptor<VariantSpec>, arch: string, env: Env)
  {
    arch in d.architectures && FetchArch(d, arch, env).result.Ok?
  }

  /** The published variants of `d`: each architecture whose fetch succeeded,
      under its own (unnormalised) key, with the record its fetch returned. */
  function Survivors(d: Descriptor<VariantSpec>, env: Env): map<string, Published>
  {
    map a | a in d.architectures && Succeeds(d, a, env) :: FetchArch(d, a, env).result.value
  }

  predicate SameMetadata<A, B>(d: Descriptor<A>, p: Descriptor<B>)
  {
    && p.name == d.name && p.description == d.description && p.homepage == d.homepage
    && p.repository == d.repository && p.license == d.license && p.version == d.version
    && p.tags == d.tags
  }

  /** `d` with its architectures replaced by `archs`, every other field kept. */
  function WithArchitectures<A, B>(d: Descriptor<A>, archs: map<string, B>): (p: Descriptor<B>)
    ensures SameMetadata(d, p) && p.architectures == archs
  {
    Descriptor(d.name, d.description, d.homepage, d.repository, d.license, d.version, archs, d.tags)
  }

  /** The processed form of `d`. */
  function Processed(d: Descriptor<VariantSpec>, env: Env): Descriptor<Published>
  {
    WithArchitectures(d, Survivors(d, env))
  }

  /** `process_yaml_file`'s architecture loop. Variants are visited in any
      order; each one is fetched and, if the fetch raised nothing, stored
      under its architecture key. */
  method ProcessDescriptor(d: Descriptor<VariantSpec>, env: Env) returns (p: Descriptor<Published>)
    ensures SameMetadata(d, p)
    ensures forall a :: a in p.architectures <==> a in d.architectures && FetchArch(d, a, env).result.Ok?
    ensures forall a :: a in p.architectures ==> FetchArch(d, a, env).result == Ok(p.architectures[a])
    ensures p == Processed(d, env)
  {
    var pending := d.architectures.Keys;
    var done: map<string, Published> := map[];
    while pending != {}
      invariant pending <= d.architectures.Keys
      invariant forall a :: a in done <==> a in d.architectures && a !in pending && Succeeds(d, a, env)
      invariant forall a :: a in done ==> FetchArch(d, a, env).result == Ok(done[a])
      decreases pending
    {
      var arch :| arch in pending;
      var run := FetchArch(d, arch, env);
      if run.result.Ok? {
        done := done[NormalizeArch(arch) := run.result.value];
      }
      pending := pending - {arch};
    }
    p := WithArchitectures(d, done);
    ProcessedIsSurvivors(d, env, p);
  }

  /** The loop computes the reference definition `Processed`. */
  lemma ProcessedIsSurvivors(d: Descriptor<VariantSpec>, env: Env, p: Descriptor<Published>)
    requires SameMetadata(d, p)
    requires forall a :: a in p.architectures <==> a in d.architectures && FetchArch(d, a, env).result.Ok?
    requires forall a :: a in p.architectures ==> FetchArch(d, a, env).result == Ok(p.architectures[a])
    ensures p == Processed(d, env)
  {
    assert p.architectures == Survivors(d, env);
  }

  /** The architectures whose fetch raised. */
  function Failed(d: Descriptor<VariantSpec>, env: Env): set<string>
  {
    set a | a in d.architectures && !Succeeds(d, a, env)
  }

  /** N declared variants of which K fail leave exactly N - K published. */
  lemma SurvivorCount(d: Descriptor<VariantSpec>, env: Env)
    ensures |Survivors(d, env)| + |Failed(d, env)| == |d.architectures|
  {
    var ok := Survivors(d, env).Keys;
    assert ok !! Failed(d, env);
    assert ok + Failed(d, env) == d.architectures.Keys;
  }

  /** Fault isolation: a variant's entry depends only on its own spec and on
      what its own url serves. Changing, breaking or adding any sibling
      leaves it as it was. */
  lemma SiblingIndependence(d: Descriptor<VariantSpec>, d': Descriptor<VariantSpec>,
                            env: Env, env': Env, arch: string)
    requires d.name == d'.name && d.version == d'.version
    requires arch in d.architectures && arch in d'.architectures
    requires d.architectures[arch] == d'.architectures[arch]
    requires env.net(d.architectures[arch].url) == env'.net(d.architectures[arch].url)
    requires env.tools == env'.tools
    ensures arch in Survivors(d, env) <==> arch in Survivors(d', env')
    ensures arch in Survivors(d, env) ==> Survivors(d, env)[arch] == Survivors(d', env')[arch]
  {
  }

  /** The descriptors that loaded, in the order of their files. */
  function Loaded(loads: seq<Option<Descriptor<VariantSpec>>>): (ds: seq<Descriptor<VariantSpec>>)
    ensures |ds| <= |loads|
    ensures forall d :: d in ds <==> Some(d) in loads
    decreases |loads|
  {
    if |loads| == 0 then []
    else
      var front := loads[..|loads| - 1];
      var last := loads[|loads| - 1];
      assert forall o :: o in loads <==> o in front || o == last by {
        assert loads == front + [last];
      }
      if last.Some? then Loaded(front) + [last.value] else Loaded(front)
  }

  /** Dropping the files that failed keeps the survivors in file order:
      loading a concatenation loads each part and concatenates. */
  lemma {:induction false} LoadedConcat(a: seq<Option<Descriptor<VariantSpec>>>,
                                        b: seq<Option<Descriptor<VariantSpec>>>)
    ensures Loaded(a + b) == Loaded(a) + Loaded(b)
    decreases |b|
  {
    if |b| == 0 {
      assert a + b == a;
    } else {
      var b' := b[..|b| - 1];
      assert (a + b)[..|a + b| - 1] == a + b';
      assert (a + b)[|a + b| - 1] == b[|b| - 1];
      LoadedConcat(a, b');
    }
  }

  /** One more file extends the loaded prefix by its descriptor, if it loaded. */
  lemma LoadedStep(loads: seq<Option<Descriptor<VariantSpec>>>, i: nat)
    requires i < |loads|
    ensures Loaded(loads[..i + 1])
         == Loaded(loads[..i]) + (if loads[i].Some? then [loads[i].value] else [])
  {
    LoadedConcat(loads[..i], [loads[i]]);
    assert loads[..i + 1] == loads[..i] + [loads[i]];
  }

  /** The body of `process_all`'s loop for one file: its processed
      descriptor, or nothing when the file did not load. */
  method ProcessFile(load: Option<Descriptor<VariantSpec>>, env: Env)
    returns (more: seq<Descriptor<Published>>)
    ensures load.None? ==> more == []
    ensures load.Some? ==> more == [Processed(load.value, env)]
  {
    more := [];
    if load.Some? {
      var p := ProcessDescriptor(load.value, env);
      more := [p];
    }
  }

  /** `process_all`'s loop over the descriptor files: `loads[i]` is the i-th
      file, None when reading or parsing it raised. Once loaded, a descriptor
      cannot fail as a whole, since every fetch error is caught per variant. */
  method ProcessAll(loads: seq<Option<Descriptor<VariantSpec>>>, env: Env)
    returns (out: seq<Descriptor<Published>>)
    ensures |out| == |Loaded(loads)|
    ensures forall k :: 0 <= k < |out| ==> out[k] == Processed(Loaded(loads)[k], env)
  {
    out := [];
    var i := 0;
    while i < |loads|
      invariant 0 <= i <= |loads|
      invariant |out| == |Loaded(loads[..i])|
      invariant forall k :: 0 <= k < |out| ==> out[k] == Processed(Loaded(loads[..i])[k], env)
    {
      LoadedStep(loads, i);
      var more := ProcessFile(loads[i], env);
      out := out + more;
      i := i + 1;
    }
    assert loads[..i] == loads;
  }
}
